=== FILE: README.md ===
# todo-cli task-tracking core, modelled in Dafny

This project models the core of `todo-cli`, a personal command-line task
tracker written in Python. The whole core lives in `src/todo_cli/models.py`:

- `TodoItem`: one todo with six fields (id, title, description, completed,
  created_at, completed_at). It rejects a blank title, takes its id from an
  auto-incrementing counter, can be completed and uncompleted, and converts
  to and from a dictionary.
- `TodoStorage`: turns the whole ordered list into a JSON array of those
  dictionaries and back.
- `TodoManager`: holds the ordered list in memory. It loads the list once
  when it is built and saves the whole list after every change that takes
  effect.

The model is functional. Items and the manager are immutable datatypes.
Each operation is a pure function that returns the new manager together
with what the Python method returns.

- The id counter is the explicit field `nextId`. In the source it is the
  class variable `TodoItem._next_id`.
- The storage file is the field `disk`. Its type is `Disk`, with the cases
  `Missing`, `Corrupt` (not JSON) and `Stored(records)`. Saving sets `disk`
  to the records of the current list, so "saved" is the predicate
  `Persisted`. The field is an ordinary (non-ghost) value, because the file
  is part of the state the Python object observes: `load()` reads it back.
- The clock is a `now: Timestamp` parameter. Timestamps are opaque.
- A stored timestamp is a `StampText`. It is either the ISO text of a
  timestamp (`Iso`) or text that `fromisoformat` rejects (`Unparseable`).
  The empty string is `Unparseable("")`. It is falsy, so `from_dict` treats
  an empty `completed_at` as absent.
- Exceptions are `Err` values: `EmptyTitle`, `MissingKey`, `BadTimestamp`,
  and `StorageError` for everything `load_todos` wraps in `RuntimeError`.

Files:
- `wrappers.dfy`: `Option` and `Result`.
- `todo_item.dfy`: module `TodoItem`, which holds the record, `strip()`,
  the constructor, `complete`/`uncomplete`, and `to_dict`/`from_dict`.
- `todo_storage.dfy`: module `TodoStorage`, which covers save and load as
  encoding and decoding of the sequence.
- `todo_manager.dfy`: module `TodoManager`, which has every manager
  operation and the properties that link the operations.
- `scenarios.dfy`: module `Scenarios`, with concrete scenarios worked
  through the model.

Four behaviours of the code are easy to miss when reading only its
comments and tests. The model follows the code in each:
- **Loading skips one id.** The comment in `from_dict` says only that the
  counter is updated "to avoid conflicts" (models.py:73). Lines 74-75 raise
  it to `id + 1`, which does avoid them. The constructor called next also
  draws one id before that id is overwritten (models.py:77-83). After a
  load the counter is therefore strictly above every loaded id, and one
  past where lines 74-75 leave it. `FromDict` states the exact value.
- **A failed load still moves the counter.** The counter is a class
  variable, and `from_dict` updates it record by record. When a later
  record fails, the updates made by the earlier ones stay. `FromDict`
  reports the counter reached on failure, `LoadTodos` carries it in the
  error, and `Load` leaves the manager's list alone but keeps that
  counter.
- **Loading does not check `completed_at`.** "`completed_at` is set iff
  `completed`" holds for items made by the constructor, `complete` and
  `uncomplete`. `from_dict` does not check it. So the invariant
  (`AllConsistent`) is only proved to be preserved by the manager
  operations. It is not proved to hold after a load.
- **Loaded ids are not checked.** They need not be unique or positive.
  `UniqueIds` is preserved by every operation but is not established by
  loading. `Valid` (counter positive and above every id, no blank title) is
  established by loading and preserved by every operation.

## Model

| member | source | states |
|---|---|---|
| `TodoItem.Strip` | src/todo_cli/models.py:37 | `strip()` leaves nothing exactly when the title is whitespace only, with Python's `str.isspace` set of whitespace characters |
| `TodoItem.StripIsSlice` | src/todo_cli/models.py:37 | the stripped title is a contiguous slice of the title that neither starts nor ends with whitespace |
| `TodoItem.StripCutsSpace` | src/todo_cli/models.py:37 | everything `strip()` removes, before and after the slice, is whitespace |
| `TodoItem.BlankMeansStripEmpty` | src/todo_cli/models.py:37-38 | the blank-title test used by the model is exactly `not title.strip()` |
| `TodoItem.Construct` | src/todo_cli/models.py:23-43 | a blank title fails with `EmptyTitle`; otherwise the item takes the counter as its id, the counter advances by one, the title is kept untrimmed and `completed_at` starts absent |
| `TodoItem.NewItem` | src/todo_cli/models.py:23-43 | a blank title fails with `EmptyTitle`; otherwise the fresh item keeps the given title and description, is pending with no `completed_at`, is created at `now`, takes the counter as id and advances it by one |
| `TodoItem.SuccessiveIdsIncrease` | src/todo_cli/models.py:40-43 | two successive constructions from a positive counter give positive, strictly increasing ids |
| `TodoItem.Complete` | src/todo_cli/models.py:45-49 | the item ends completed with id, title, description and created_at unchanged; a pending item is stamped `now`; an already completed item is returned unchanged, so its old stamp is kept; consistency is preserved |
| `TodoItem.Uncomplete` | src/todo_cli/models.py:51-55 | the item ends pending with identity fields unchanged; a completed item loses its stamp; a pending item is returned unchanged; consistency is preserved |
| `TodoItem.UncompleteUndoesComplete` | src/todo_cli/models.py:45-55 | uncompleting a just-completed, previously pending and consistent item gives back the original item |
| `TodoItem.ToDict` | src/todo_cli/models.py:57-68 | all keys are written; `completed_at` is null exactly when the item has no stamp and otherwise holds the ISO text of that very stamp, which for a consistent item means it is set exactly when the item is completed |
| `TodoItem.FromDict` | src/todo_cli/models.py:70-88 | succeeds exactly on decodable records and yields the item the record denotes (defaults `""` and false, falsy `completed_at` treated as absent); the counter ends strictly above both the loaded id and its old value (`max(counter, id+1) + 1`); missing `id`, `title` or `created_at`, unparseable `created_at`, a blank title and a truthy unparseable `completed_at` give the matching errors, in Python's evaluation order, each with the counter as far as it got before the raise (untouched, raised to `max(counter, id+1)`, or one above that after the constructor's draw) |
| `TodoItem.DenotedToDict` | src/todo_cli/models.py:57-88 | the record `to_dict` writes for an item with a non-blank title is decodable and denotes that same item |
| `TodoItem.DictRoundTrip` | src/todo_cli/models.py:57-88 | `from_dict(to_dict(x)) == x` in all six fields, for pending and completed items alike, and the counter ends above `x.id` |
| `TodoStorage.SaveTodos` | src/todo_cli/models.py:119-131 | one record per item, `to_dict` of each, in list order |
| `TodoStorage.DecodeFrom` | src/todo_cli/models.py:110-117 | records are decoded left to right while the counter is threaded through; on success there is one item per record, the counter has not decreased and is above every loaded id; on failure the reported index is a record that cannot be decoded, the reported error is the one `from_dict` raises on that record from a counter no lower than the starting one, and the reported counter has not decreased and exceeds the id of every record read before the failing one |
| `TodoStorage.DecodeFromMeaning` | src/todo_cli/models.py:110-117 | decoding succeeds exactly when every record is decodable; the items are the records' items in the records' order; a failure names the first bad record |
| `TodoStorage.LoadTodos` | src/todo_cli/models.py:105-117 | a missing file gives an empty list with the counter unchanged; a non-JSON file is an error that leaves the counter unchanged; otherwise the result succeeds exactly when every record decodes, keeps the stored order, has no blank title, and leaves the counter above every id; a failure of a stored file names a record in it and reports a counter that exceeds the id of every record before that one and is no lower than the one it started from |
| `TodoStorage.SaveLoadRoundTrip` | src/todo_cli/models.py:105-131 | loading what was saved gives back the same items in the same order, when every title is non-blank |
| `TodoManager.Matching` | src/todo_cli/models.py:171 | the filter keeps every item with the requested status and only those: the count is right, every kept item has that status, and the result is a subsequence of the list |
| `TodoManager.CountSplit` | src/todo_cli/models.py:204-210 | every item is counted either as completed or as pending |
| `TodoManager.MatchingAll` | src/todo_cli/models.py:206-209 | when no item is completed, keeping the pending items keeps the whole list |
| `TodoManager.MatchingMembers` | src/todo_cli/models.py:206-207 | every item the filter keeps is an item of the list |
| `TodoManager.MatchingUnique` | src/todo_cli/models.py:207 | filtering a list with unique ids leaves ids unique |
| `TodoManager.FindIndex` | src/todo_cli/models.py:175 | the position found holds the id and no earlier item holds it; nothing is found exactly when no item has the id |
| `TodoManager.RemoveFirst` | src/todo_cli/models.py:199 | `list.remove` takes out exactly one element |
| `TodoManager.RemoveFirstAt` | src/todo_cli/models.py:197-199 | removing the first item with the id by value (`list.remove`) takes out exactly that position and keeps the others in order |
| `TodoManager.RemoveAtKeeps` | src/todo_cli/models.py:199 | removing one item keeps ids below the counter, titles non-blank, items consistent and ids unique |
| `TodoManager.Save` | src/todo_cli/models.py:156-158 | after saving, the file holds exactly the list; list and counter are unchanged |
| `TodoManager.Load` | src/todo_cli/models.py:152-154 | fails exactly when loading the file fails; on success the list becomes the file's contents in the file's order; on failure the list is kept and the counter is the one the failed load left behind; the file is untouched, the counter never decreases, and `Valid` is established by a successful load and kept by a failed one |
| `TodoManager.Open` | src/todo_cli/models.py:146-150 | building a manager loads at once: a missing file gives an empty list, a non-JSON file fails, a stored file opens exactly when every record decodes and the list is then the decoded records in file order, a failure is the load's own error, and a manager opened with a positive counter is `Valid` |
| `TodoManager.ReloadAfterSave` | src/todo_cli/models.py:152-158 | when the file holds the list, reloading gives back the same list |
| `TodoManager.AddTodo` | src/todo_cli/models.py:160-165 | fails with `EmptyTitle` exactly for a blank title and produces no new state; otherwise the new pending item keeps the title and description, is created at `now` with no `completed_at`, takes the counter as id, goes at the end, its id exceeds every existing id, the list is saved, and `Valid`, unique ids and consistency are preserved |
| `TodoManager.AddThenLookup` | src/todo_cli/models.py:160-175 | looking up the returned item's id afterwards finds exactly that item |
| `TodoManager.GetTodos` | src/todo_cli/models.py:167-171 | no filter returns the whole list; a filter returns all items with that status and only those, in list order |
| `TodoManager.GetTodoById` | src/todo_cli/models.py:173-175 | returns the first item with the id, or none exactly when no item has it |
| `TodoManager.CompleteTodo` | src/todo_cli/models.py:177-184 | succeeds exactly when the first item with the id exists and is pending; then only that item is completed and the list is saved; otherwise nothing changes and nothing is saved; invariants are preserved |
| `TodoManager.UncompleteTodo` | src/todo_cli/models.py:186-193 | succeeds exactly when the first item with the id exists and is completed; then only that item is uncompleted and the list is saved; otherwise nothing changes and nothing is saved; invariants are preserved |
| `TodoManager.DeleteTodo` | src/todo_cli/models.py:195-202 | succeeds exactly when some item has the id; then the first such item is removed, the others keep their order, and the list is saved; otherwise nothing changes; invariants are preserved |
| `TodoManager.ClearCompleted` | src/todo_cli/models.py:204-210 | returns the number of completed items and leaves exactly the pending ones in order; saves when that number is positive, and changes nothing when it is 0; invariants are preserved |
| `TodoManager.CompleteTwice` | src/todo_cli/models.py:177-184 | the first call succeeds and stamps the item; the second returns false, changes nothing, and keeps the first stamp |
| `TodoManager.CompleteThenUncomplete` | src/todo_cli/models.py:177-193 | uncompleting right after a successful complete succeeds and restores the original list of consistent items |
| `TodoManager.DeleteThenLookup` | src/todo_cli/models.py:195-202 | after a successful delete from a list with unique ids, the id is no longer found |
| `Scenarios.EndToEnd` | src/todo_cli/models.py:160-184 | adding "Buy milk" and "Write report" and completing the first leaves one pending item ("Write report") and one completed item ("Buy milk", stamped) |
| `Scenarios.AddAfterLoadingExceedsMaxId` | src/todo_cli/models.py:73-75 | after loading ids 5, 2 and 9 in that order, they keep that order and a new todo gets an id above 9 |
| `Scenarios.BadFilesFailToOpen` | tests/test_models.py:224-241 | a non-JSON file, a blank title, a missing title and the tests' record with none of the expected keys all make opening fail |
| `Scenarios.FailedLoadKeepsCounter` | src/todo_cli/models.py:73-83 | a manager holding one item with counter 2 reloads a file whose id-10 record decodes and whose next record has no title: the load raises, the one-item list is kept, and the counter is left at 12, so the next todo gets id 12 |

## Left out

- File I/O in `TodoStorage` is not modelled: `exists`, `mkdir`, `open`, the JSON text (`indent=2`, `ensure_ascii=False`) and the file path. The file is the `Disk` value.
- Write failures are not modelled. `save_todos` can raise `OSError`, which is wrapped in `RuntimeError`; in the model, `Save` always succeeds.
- `datetime.now()`, `isoformat()` and `fromisoformat()` are not modelled. Timestamps are opaque values passed in as `now`. A stored timestamp is either the exact text of one (which parses back to it) or text that does not parse.
- Exception message strings and the file path inside `RuntimeError` are not modelled; errors are result variants.
- JSON values of the wrong type are not modelled, because the `Record` fields are typed and cannot hold them. Some raise errors that `load_todos` does not catch, such as a non-string title (`AttributeError` from `strip`). Others load without complaint as values the model cannot represent: a float `id` such as 5.5 passes the comparison and moves the counter to 7.5; a top-level `{}` or `""` is iterated as an empty collection and loads as an empty list; a JSON `null` `description` or `completed` loads as `None`.
- Sharing the counter between managers in one process is not modelled. The counter belongs to each manager value; `Open` takes its starting value.
- Aliasing is not modelled. `add_todo`, `get_todos` and `get_todo_by_id` return the live Python objects, and a caller may mutate them directly (the tests call `todo.complete()` on the item `add_todo` returned). In the model, items change only through manager operations.
- `src/todo_cli/cli.py` is not modelled. It is presentation over the manager: Click options, prompts, Rich tables, exit codes, and the floating-point completion rate in `stats`.
- `src/todo_cli/__init__.py` (re-exports only) and the pytest fixtures are not modelled.

=== FILE: scenarios.dfy ===
/** Concrete scenarios worked through the model: a short session of adds
    and a completion, a load of ids out of order, and files that fail to
    open. */
module Scenarios {
  import opened Wrappers
  import opened TodoItem
  import opened TodoStorage
  import opened TodoManager

  /** A stored record with the given id and title, created at time 0. */
  function StoredRecord(id: int, title: string): (d: Record)
    ensures d.id == Some(id) && d.title == Some(title) && d.createdAt == Some(Iso(Timestamp(0)))
  {
    Record(Some(id), Some(title), Some(""), Some(false), Some(Iso(Timestamp(0))), None)
  }

  /** A fresh file: add "Buy milk", add "Write report" with a description,
      complete the first. Then the pending filter yields exactly
      "Write report" and the completed filter exactly "Buy milk", stamped
      with the completion time. */
  lemma EndToEnd(t1: Timestamp, t2: Timestamp, t3: Timestamp)
    ensures Open(Missing, 1).Ok?
    ensures var m0 := Open(Missing, 1).value;
      && AddTodo(m0, "Buy milk", "", t1).Ok?
      && var a1 := AddTodo(m0, "Buy milk", "", t1).value;
      && AddTodo(a1.manager, "Write report", "quarterly", t2).Ok?
      && var a2 := AddTodo(a1.manager, "Write report", "quarterly", t2).value;
      && var m3 := CompleteTodo(a2.manager, a1.item.id, t3).manager;
      && |GetTodos(m3, Some(false))| == 1
      && GetTodos(m3, Some(false))[0].title == "Write report"
      && |GetTodos(m3, Some(true))| == 1
      && GetTodos(m3, Some(true))[0].title == "Buy milk"
      && GetTodos(m3, Some(true))[0].completedAt == Some(t3)
  {
    var m0 := Open(Missing, 1).value;
    assert !IsSpace("Buy milk"[0]);
    assert !IsSpace("Write report"[0]);
    var a1 := AddTodo(m0, "Buy milk", "", t1).value;
    var a2 := AddTodo(a1.manager, "Write report", "quarterly", t2).value;
    assert a2.manager.todos == [a1.item, a2.item];
    assert a1.item.id == 1 && a2.item.id == 2;
    assert FindIndex(a2.manager.todos, 1) == Some(0);
    var m3 := CompleteTodo(a2.manager, a1.item.id, t3).manager;
    var done := Complete(a1.item, t3);
    assert m3.todos == [done, a2.item];
    FilterPair(done, a2.item);
  }

  /** Filtering a two-item list with one completed and one pending item. */
  lemma FilterPair(x: Item, y: Item)
    requires x.completed && !y.completed
    ensures Matching([x, y], false) == [y] && Matching([x, y], true) == [x]
  {
    assert [x, y][1..] == [y] && [y][1..] == [];
  }

  /** A file holding ids 5, 2 and 9 in that order: after loading, a new
      todo gets an id above 9, and the loaded order is kept. */
  lemma AddAfterLoadingExceedsMaxId(now: Timestamp)
    ensures var disk := Stored([StoredRecord(5, "a"), StoredRecord(2, "b"), StoredRecord(9, "c")]);
      && Open(disk, 1).Ok?
      && Open(disk, 1).value.todos[0].id == 5
      && Open(disk, 1).value.todos[1].id == 2
      && Open(disk, 1).value.todos[2].id == 9
      && AddTodo(Open(disk, 1).value, "d", "", now).Ok?
      && AddTodo(Open(disk, 1).value, "d", "", now).value.item.id > 9
  {
    var records := [StoredRecord(5, "a"), StoredRecord(2, "b"), StoredRecord(9, "c")];
    assert !IsSpace("a"[0]) && !IsSpace("b"[0]) && !IsSpace("c"[0]) && !IsSpace("d"[0]);
    assert Decodable(records[0]) && Decodable(records[1]) && Decodable(records[2]);
    DecodeFromMeaning(records, 0, 1);
    var m := Open(Stored(records), 1).value;
    assert |m.todos| == 3;
    assert m.todos[2] == Denoted(records[2]);
  }

  /** A file that is not JSON makes opening fail; so does a blank or missing
      title, and a record with none of the expected keys. */
  lemma BadFilesFailToOpen(now: Timestamp)
    ensures Open(Corrupt, 1).Err?
    ensures Open(Stored([StoredRecord(1, "   ")]), 1).Err?
    ensures Open(Stored([Record(Some(1), None, None, None, Some(Iso(now)), None)]), 1).Err?
    ensures Open(Stored([Record(None, None, None, None, None, None)]), 1).Err?
  {
    DecodeFromMeaning([StoredRecord(1, "   ")], 0, 1);
    DecodeFromMeaning([Record(Some(1), None, None, None, Some(Iso(now)), None)], 0, 1);
  }

  /** A live manager holding one item, with counter 2, reloads a file
      holding a good record with id 10 followed by one with id 3 and no
      title. The load raises, the one-item list is kept, and the counter has
      moved past both records, so the next todo gets id 12: 10 raised the
      counter to 11 and the constructor drew 11, then 3 left 12 untouched
      before the missing title raised. */
  lemma FailedLoadKeepsCounter(now: Timestamp)
    ensures var m := Manager([Item(1, "x", "", false, Timestamp(0), None)], 2, Stored([StoredRecord(10, "a"), Record(Some(3), None, None, None, None, None)]));
      && Load(m).failure == Some(StorageError(BadRecord(1, MissingKey(TitleKey)), 12))
      && Load(m).manager == m.(nextId := 12)
      && AddTodo(Load(m).manager, "d", "", now).Ok?
      && AddTodo(Load(m).manager, "d", "", now).value.item.id == 12
  {
    assert !IsSpace("a"[0]) && !IsSpace("d"[0]);
  }
}

=== FILE: todo_item.dfy ===
/** One todo and its lifecycle: the `TodoItem` dataclass of
    src/todo_cli/models.py. The process-wide id counter (`_next_id`) is passed
    in and handed back explicitly instead of living in a class variable, and
    the clock (`datetime.now()`) is a `now` parameter. */
module TodoItem {
  import opened Wrappers

  /** A point in time as the clock reports it. The model never looks inside. */
  datatype Timestamp = Timestamp(ticks: int)

  /** The six fields of a todo. `completedAt == None` is Python's `None`. */
  datatype Item = Item(
    id: int,
    title: string,
    description: string,
    completed: bool,
    createdAt: Timestamp,
    completedAt: Option<Timestamp>)

  /** An item together with the value the id counter holds afterwards. */
  datatype Created = Created(item: Item, nextId: int)

  /** The dictionary keys whose absence or bad content is an error. */
  datatype Key = IdKey | TitleKey | CreatedAtKey | CompletedAtKey

  /** What constructing or deserialising an item can raise: the `ValueError`
      for a blank title, the `KeyError` for a missing key, and the
      `ValueError` of `datetime.fromisoformat` for unparseable text. */
  datatype ItemError = EmptyTitle | MissingKey(key: Key) | BadTimestamp(key: Key)

  /** A failed `from_dict`: what it raised, and the value the id counter was
      left holding, since the counter updates made before the raise stay. */
  datatype Rejected = Rejected(error: ItemError, nextId: int)

  /** The text a timestamp is stored as in the JSON document: either the ISO
      text `isoformat()` writes for a timestamp, or some other text that
      `fromisoformat()` rejects. ISO text is never empty. */
  datatype StampText = Iso(stamp: Timestamp) | Unparseable(raw: string)

  /** A stored todo: the dictionary `to_dict` produces and `from_dict` reads.
      `None` is a missing key; for `completedAt` it is also JSON `null`. */
  datatype Record = Record(
    id: Option<int>,
    title: Option<string>,
    description: Option<string>,
    completed: Option<bool>,
    createdAt: Option<StampText>,
    completedAt: Option<StampText>)

  // ---------------------------------------------------------------------
  // Blank titles: Python's str.strip()
  // ---------------------------------------------------------------------

  /** The characters Python's `str.isspace` accepts, which are exactly the
      ones `str.strip()` removes. */
  predicate IsSpace(c: char) {
    || ('\t' <= c <= '\r')
    || ('\U{1C}' <= c <= ' ')
    || c == '\U{85}' || c == '\U{A0}' || c == '\U{1680}'
    || ('\U{2000}' <= c <= '\U{200A}')
    || c == '\U{2028}' || c == '\U{2029}' || c == '\U{202F}'
    || c == '\U{205F}' || c == '\U{3000}'
  }

  predicate AllSpace(s: string) {
    forall i :: 0 <= i < |s| ==> IsSpace(s[i])
  }

  /** The position of the first non-whitespace character of `s` at or after
      `i`, or `|s|` when there is none. */
  function SkipSpace(s: string, i: nat): (n: nat)
    requires i <= |s|
    decreases |s| - i
    ensures i <= n <= |s|
    ensures forall k :: i <= k < n ==> IsSpace(s[k])
    ensures n < |s| ==> !IsSpace(s[n])
  {
    if i < |s| && IsSpace(s[i]) then SkipSpace(s, i + 1) else i
  }

  /** The position just after the last non-whitespace character of
      `s[lo..e]`, or `lo` when there is none. */
  function BackSpace(s: string, lo: nat, e: nat): (r: nat)
    requires lo <= e <= |s|
    decreases e
    ensures lo <= r <= e
    ensures forall k :: r <= k < e ==> IsSpace(s[k])
    ensures r > lo ==> !IsSpace(s[r - 1])
  {
    if e > lo && IsSpace(s[e - 1]) then BackSpace(s, lo, e - 1) else e
  }

  /** How many leading characters `strip()` removes. */
  function StripOffset(s: string): (n: nat)
    ensures n <= |s|
  {
    SkipSpace(s, 0)
  }

  /** Where the text `strip()` keeps ends. */
  function StripEnd(s: string): (e: nat)
    ensures StripOffset(s) <= e <= |s|
  {
    BackSpace(s, StripOffset(s), |s|)
  }

  /** Python's `s.strip()`: `s` with its leading and trailing whitespace cut
      off; empty exactly when `s` is all whitespace (`StripIsSlice` and
      `StripCutsSpace` say the rest). */
  function Strip(s: string): (r: string)
    ensures |r| <= |s|
    ensures r == [] <==> AllSpace(s)
  {
    var n := StripOffset(s);
    var e := StripEnd(s);
    s[n..e]
  }

  /** `Strip(s)` is the slice of `s` starting after the leading whitespace,
      and it neither starts nor ends with whitespace itself. */
  lemma StripIsSlice(s: string)
    ensures StripOffset(s) + |Strip(s)| <= |s|
    ensures Strip(s) == s[StripOffset(s)..StripOffset(s) + |Strip(s)|]
    ensures Strip(s) != [] ==> !IsSpace(Strip(s)[0]) && !IsSpace(Strip(s)[|Strip(s)| - 1])
  {
    var n := StripOffset(s);
    var e := StripEnd(s);
    assert Strip(s) == s[n..e];
    if n < e {
      assert Strip(s)[0] == s[n] && Strip(s)[e - n - 1] == s[e - 1];
    }
  }

  /** What `Strip(s)` cuts off on either side is whitespace only. */
  lemma StripCutsSpace(s: string)
    ensures StripOffset(s) + |Strip(s)| <= |s|
    ensures forall i :: 0 <= i < StripOffset(s) ==> IsSpace(s[i])
    ensures forall i :: StripOffset(s) + |Strip(s)| <= i < |s| ==> IsSpace(s[i])
  {
    assert |Strip(s)| == StripEnd(s) - StripOffset(s);
  }

  /** The title check of `__post_init__`, `not title.strip()`, stated by what
      it means: the title is whitespace only (`BlankMeansStripEmpty`). */
  predicate IsBlank(title: string) {
    AllSpace(title)
  }

  /** `IsBlank` holds exactly when `strip()` leaves nothing. */
  lemma BlankMeansStripEmpty(title: string)
    ensures IsBlank(title) <==> Strip(title) == []
  {
  }

  // ---------------------------------------------------------------------
  // Construction and lifecycle
  // ---------------------------------------------------------------------

  /** `completed_at` is set exactly when the item is completed: what items
      built by the constructor, `complete` and `uncomplete` keep, and what
      `from_dict` does NOT check. */
  predicate Consistent(x: Item) {
    x.completed <==> x.completedAt.Some?
  }

  /** Two items that agree on everything except completion status. */
  predicate SameIdentity(x: Item, y: Item) {
    x.id == y.id && x.title == y.title && x.description == y.description
    && x.createdAt == y.createdAt
  }

  /** The dataclass constructor followed by `__post_init__`: a blank title is
      rejected before the counter is touched; otherwise the new item takes the
      counter's value as its id (its `id` field always starts at 0, so the
      draw always happens) and the counter moves on by one. The title is kept
      as given, untrimmed, and `completed_at` starts out as `None`. */
  function Construct(title: string, description: string, completed: bool,
                     createdAt: Timestamp, nextId: int): (r: Result<Created, ItemError>)
    ensures r.Err? <==> IsBlank(title)
    ensures r.Err? ==> r.error == EmptyTitle
    ensures r.Ok? ==> r.value.item.id == nextId && r.value.nextId == nextId + 1
    ensures r.Ok? ==> r.value.item.title == title && r.value.item.description == description
    ensures r.Ok? ==> r.value.item.completed == completed && r.value.item.createdAt == createdAt
    ensures r.Ok? ==> r.value.item.completedAt.None?
  {
    if IsBlank(title) then Err(EmptyTitle)
    else Ok(Created(Item(nextId, title, description, completed, createdAt, None), nextId + 1))
  }

  /** `TodoItem(title, description)`: a fresh pending item created at `now`. */
  function NewItem(title: string, description: string, now: Timestamp, nextId: int): (r: Result<Created, ItemError>)
    ensures r.Err? <==> IsBlank(title)
    ensures r.Err? ==> r.error == EmptyTitle
    ensures r.Ok? ==> r.value.item.title == title && r.value.item.description == description
    ensures r.Ok? ==> r.value.item.id == nextId && r.value.nextId == nextId + 1
    ensures r.Ok? ==> !r.value.item.completed && Consistent(r.value.item)
    ensures r.Ok? ==> r.value.item.createdAt == now && !IsBlank(r.value.item.title)
  {
    Construct(title, description, false, now, nextId)
  }

  /** `complete()`: a pending item becomes completed at `now`; a completed one
      is left exactly as it was, so its completion time is kept. */
  function Complete(x: Item, now: Timestamp): (r: Item)
    ensures r.completed && SameIdentity(x, r)
    ensures x.completed ==> r == x
    ensures !x.completed ==> r.completedAt == Some(now)
    ensures Consistent(x) ==> Consistent(r)
  {
    if !x.completed then x.(completed := true, completedAt := Some(now)) else x
  }

  /** `uncomplete()`: a completed item becomes pending with no completion
      time; a pending one is left exactly as it was. */
  function Uncomplete(x: Item): (r: Item)
    ensures !r.completed && SameIdentity(x, r)
    ensures !x.completed ==> r == x
    ensures x.completed ==> r.completedAt.None?
    ensures Consistent(x) ==> Consistent(r)
  {
    if x.completed then x.(completed := false, completedAt := None) else x
  }

  /** Completing a consistent pending item and then uncompleting it gives the
      item back unchanged. */
  lemma UncompleteUndoesComplete(x: Item, now: Timestamp)
    requires Consistent(x) && !x.completed
    ensures Uncomplete(Complete(x, now)) == x
  {
  }

  /** Two successive constructions from a positive counter yield positive,
      strictly increasing ids. */
  lemma SuccessiveIdsIncrease(t1: string, d1: string, n1: Timestamp,
                              t2: string, d2: string, n2: Timestamp, counter: int)
    requires counter >= 1 && !IsBlank(t1) && !IsBlank(t2)
    ensures NewItem(t1, d1, n1, counter).Ok?
    ensures NewItem(t2, d2, n2, NewItem(t1, d1, n1, counter).value.nextId).Ok?
    ensures 0 < NewItem(t1, d1, n1, counter).value.item.id
              < NewItem(t2, d2, n2, NewItem(t1, d1, n1, counter).value.nextId).value.item.id
  {
  }

  // ---------------------------------------------------------------------
  // Serialisation
  // ---------------------------------------------------------------------

  /** Python truthiness of a stored timestamp: only the empty string is false. */
  predicate Truthy(t: StampText) {
    t.Iso? || t.raw != []
  }

  /** `to_dict()`: every key is written; `completed_at` is `null` when the
      item has no completion time. */
  function ToDict(x: Item): (r: Record)
    ensures r.id == Some(x.id) && r.title == Some(x.title)
    ensures r.description == Some(x.description) && r.completed == Some(x.completed)
    ensures r.createdAt == Some(Iso(x.createdAt))
    ensures r.completedAt.Some? <==> x.completedAt.Some?
    ensures r.completedAt.Some? ==> r.completedAt.value.Iso?
    ensures x.completedAt.Some? ==> r.completedAt == Some(Iso(x.completedAt.value))
    ensures Consistent(x) ==> (r.completedAt.Some? <==> r.completed == Some(true))
  {
    Record(Some(x.id), Some(x.title), Some(x.description), Some(x.completed),
           Some(Iso(x.createdAt)),
           match x.completedAt
           case Some(t) => Some(Iso(t))
           case None => None)
  }

  /** The records `from_dict` accepts: `id`, `title` and a parseable
      `created_at` are present, the title is not blank, and `completed_at`,
      when truthy, parses. */
  predicate Decodable(d: Record) {
    && d.id.Some? && d.title.Some? && !IsBlank(d.title.value)
    && d.createdAt.Some? && d.createdAt.value.Iso?
    && (d.completedAt.Some? && Truthy(d.completedAt.value) ==> d.completedAt.value.Iso?)
  }

  /** The item a decodable record denotes: missing `description` means "",
      missing `completed` means false, a falsy `completed_at` means none.
      Nothing ties `completed` to `completed_at` here. */
  function Denoted(d: Record): Item
    requires Decodable(d)
  {
    Item(d.id.value, d.title.value, d.description.GetOr(""), d.completed.GetOr(false),
         d.createdAt.value.stamp,
         if d.completedAt.Some? && d.completedAt.value.Iso? then Some(d.completedAt.value.stamp) else None)
  }

  /** The counter after the first two lines of `from_dict`: raised to
      `id + 1` when it does not already exceed `id`. */
  function RaiseTo(counter: int, id: int): (r: int)
    ensures r > id && r >= counter
    ensures r == counter || r == id + 1
  {
    if id >= counter then id + 1 else counter
  }

  /** `from_dict(data)`. The counter is first raised past `id`; the
      constructor call inside then draws from it once more before `id` is
      overwritten, so on success the counter ends one above that. Errors
      come in Python's evaluation order: `id`, `title`, `created_at` lookups
      and parse, the blank-title check, then the `completed_at` parse. A
      failure reports the counter as far as it had got: untouched when `id`
      is missing, raised when a later lookup, parse or the title check
      fails, and raised and drawn from when `completed_at` does not parse. */
  function FromDict(d: Record, counter: int): (r: Result<Created, Rejected>)
    ensures r.Ok? <==> Decodable(d)
    ensures r.Ok? ==> r.value.item == Denoted(d)
    ensures r.Ok? ==> r.value.nextId > d.id.value && r.value.nextId > counter
    ensures r.Ok? ==> r.value.nextId == RaiseTo(counter, d.id.value) + 1
    ensures r.Err? ==> r.error.nextId >= counter
    ensures d.id.None? ==> r == Err(Rejected(MissingKey(IdKey), counter))
    ensures d.id.Some? && d.title.None?
            ==> r == Err(Rejected(MissingKey(TitleKey), RaiseTo(counter, d.id.value)))
    ensures d.id.Some? && d.title.Some? && d.createdAt.None?
            ==> r == Err(Rejected(MissingKey(CreatedAtKey), RaiseTo(counter, d.id.value)))
    ensures d.id.Some? && d.title.Some? && d.createdAt.Some? && d.createdAt.value.Unparseable?
            ==> r == Err(Rejected(BadTimestamp(CreatedAtKey), RaiseTo(counter, d.id.value)))
    ensures d.id.Some? && d.title.Some? && d.createdAt.Some? && d.createdAt.value.Iso? && IsBlank(d.title.value)
            ==> r == Err(Rejected(EmptyTitle, RaiseTo(counter, d.id.value)))
    ensures Decodable(d.(completedAt := None)) && d.completedAt.Some? && Truthy(d.completedAt.value)
            && d.completedAt.value.Unparseable?
            ==> r == Err(Rejected(BadTimestamp(CompletedAtKey), RaiseTo(counter, d.id.value) + 1))
  {
    if d.id.None? then Err(Rejected(MissingKey(IdKey), counter))
    else
      var id := d.id.value;
      var raised := RaiseTo(counter, id);
      if d.title.None? then Err(Rejected(MissingKey(TitleKey), raised))
      else if d.createdAt.None? then Err(Rejected(MissingKey(CreatedAtKey), raised))
      else if d.createdAt.value.Unparseable? then Err(Rejected(BadTimestamp(CreatedAtKey), raised))
      else
        match Construct(d.title.value, d.description.GetOr(""), d.completed.GetOr(false),
                        d.createdAt.value.stamp, raised)
        case Err(e) => Err(Rejected(e, raised))
        case Ok(c) =>
          var x := c.item.(id := id);
          match d.completedAt
          case None => Ok(Created(x, c.nextId))
          case Some(t) =>
            if !Truthy(t) then Ok(Created(x, c.nextId))
            else if t.Unparseable? then Err(Rejected(BadTimestamp(CompletedAtKey), c.nextId))
            else Ok(Created(x.(completedAt := Some(t.stamp)), c.nextId))
  }

  /** The record `to_dict` writes for an item with a non-blank title is
      decodable and denotes that same item, in all six fields. */
  lemma DenotedToDict(x: Item)
    requires !IsBlank(x.title)
    ensures Decodable(ToDict(x)) && Denoted(ToDict(x)) == x
  {
  }

  /** Round trip: `from_dict(to_dict(x))` equals `x` in all six fields, for
      pending and completed items alike, and leaves the counter above `x.id`. */
  lemma DictRoundTrip(x: Item, counter: int)
    requires !IsBlank(x.title)
    ensures FromDict(ToDict(x), counter).Ok?
    ensures FromDict(ToDict(x), counter).value.item == x
    ensures FromDict(ToDict(x), counter).value.nextId > x.id
  {
    DenotedToDict(x);
  }
}

=== FILE: todo_manager.dfy ===
/** `TodoManager` of src/todo_cli/models.py: the ordered list of todos, the
    rules over it, and a save of the whole list after every change that takes
    effect. The manager is an immutable value; each operation returns the new
    manager together with its result. The storage file is the `disk` field, so
    "saved" means `disk` holds exactly the records of the current list. */
module TodoManager {
  import opened Wrappers
  import opened TodoItem
  import opened TodoStorage

  /** The in-memory list (in insertion order), the id counter, and what the
      storage file holds. */
  datatype Manager = Manager(todos: seq<Item>, nextId: int, disk: Disk)

  /** The manager after `add_todo` and the item it returns. */
  datatype Added = Added(manager: Manager, item: Item)

  /** The manager after a guarded change and the boolean the source returns. */
  datatype Outcome = Outcome(manager: Manager, success: bool)

  /** The manager after `clear_completed` and the number of items removed. */
  datatype Cleared = Cleared(manager: Manager, count: nat)

  /** The manager after `load()` and the error it raised, if any. A raising
      `load()` still leaves the object behind, with its counter moved on. */
  datatype Reloaded = Reloaded(manager: Manager, failure: Option<StorageError>)

  // ---------------------------------------------------------------------
  // Properties of a list of todos
  // ---------------------------------------------------------------------

  /** The file holds exactly the current list. */
  predicate Persisted(m: Manager) {
    m.disk == Saved(m.todos)
  }

  /** What every manager obtained by loading or by the operations below
      keeps: a positive counter above every id, and no blank title. */
  predicate Valid(m: Manager) {
    m.nextId >= 1 && IdsBelow(m.todos, m.nextId) && TitlesPresent(m.todos)
  }

  /** No two items share an id. Nothing in the source enforces this on a
      loaded file; the operations preserve it. */
  predicate UniqueIds(s: seq<Item>) {
    forall j, k :: 0 <= j < k < |s| ==> s[j].id != s[k].id
  }

  /** Every item has `completed_at` exactly when it is completed. True of
      items made by the constructor, `complete` and `uncomplete`, but not
      checked when loading. */
  predicate AllConsistent(s: seq<Item>) {
    forall k :: 0 <= k < |s| ==> Consistent(s[k])
  }

  /** How many items have completion status `b`. */
  function Count(s: seq<Item>, b: bool): nat {
    if s == [] then 0 else (if s[0].completed == b then 1 else 0) + Count(s[1..], b)
  }

  /** `a` is `s` with some elements left out and the rest kept in order. */
  predicate Subsequence(a: seq<Item>, s: seq<Item>) {
    if a == [] then true
    else if s == [] then false
    else if a[0] == s[0] then Subsequence(a[1..], s[1..])
    else Subsequence(a, s[1..])
  }

  /** `[todo for todo in s if todo.completed == b]`: the items with status `b`,
      all of them, in their original order. */
  function Matching(s: seq<Item>, b: bool): (r: seq<Item>)
    ensures forall k :: 0 <= k < |r| ==> r[k].completed == b
    ensures |r| == Count(s, b)
    ensures Subsequence(r, s)
  {
    if s == [] then []
    else if s[0].completed == b then
      var rest := Matching(s[1..], b);
      assert ([s[0]] + rest)[1..] == rest;
      [s[0]] + rest
    else
      Matching(s[1..], b)
  }

  /** Every item is either completed or pending. */
  lemma {:induction false} CountSplit(s: seq<Item>)
    ensures Count(s, true) + Count(s, false) == |s|
  {
    if s != [] {
      CountSplit(s[1..]);
    }
  }

  /** When no item has status `b`, keeping the others keeps everything. */
  lemma {:induction false} MatchingAll(s: seq<Item>, b: bool)
    requires Count(s, !b) == 0
    ensures Matching(s, b) == s
  {
    if s != [] {
      MatchingAll(s[1..], b);
      assert [s[0]] + s[1..] == s;
    }
  }

  /** Every item that filtering keeps comes from the list. */
  lemma {:induction false} MatchingMembers(s: seq<Item>, b: bool)
    ensures forall k :: 0 <= k < |Matching(s, b)| ==> Matching(s, b)[k] in s
  {
    if s != [] {
      MatchingMembers(s[1..], b);
      var rest := Matching(s[1..], b);
      forall k | 0 <= k < |rest| ensures rest[k] in s {
        assert rest[k] in s[1..];
      }
    }
  }

  /** Filtering a list with unique ids leaves ids unique. */
  lemma {:induction false} MatchingUnique(s: seq<Item>, b: bool)
    ensures UniqueIds(s) ==> UniqueIds(Matching(s, b))
  {
    if s != [] && UniqueIds(s) {
      MatchingUnique(s[1..], b);
      if s[0].completed == b {
        MatchingMembers(s[1..], b);
        var rest := Matching(s[1..], b);
        var r := [s[0]] + rest;
        forall j, k | 0 <= j < k < |r| ensures r[j].id != r[k].id {
          if j == 0 {
            var n :| 0 <= n < |s[1..]| && s[1..][n] == rest[k - 1];
            assert s[n + 1] == r[k];
          } else {
            assert r[j] == rest[j - 1] && r[k] == rest[k - 1];
          }
        }
      }
    }
  }

  /** The position of the first item with id `id`, if any: what
      `next((t for t in s if t.id == id), None)` finds. */
  function FindIndex(s: seq<Item>, id: int): (r: Option<nat>)
    ensures r.Some? ==> r.value < |s| && s[r.value].id == id
    ensures r.Some? ==> forall k :: 0 <= k < r.value ==> s[k].id != id
    ensures r.None? <==> forall k :: 0 <= k < |s| ==> s[k].id != id
  {
    if s == [] then None
    else if s[0].id == id then Some(0)
    else
      match FindIndex(s[1..], id)
      case None => None
      case Some(j) => Some(j + 1)
  }

  /** Python's `s.remove(x)`: drop the first element EQUAL to `x`. */
  function RemoveFirst(s: seq<Item>, x: Item): (r: seq<Item>)
    requires x in s
    ensures |r| == |s| - 1
  {
    if s[0] == x then s[1..] else [s[0]] + RemoveFirst(s[1..], x)
  }

  /** When no earlier element equals `s[i]`, `remove(s[i])` takes out exactly
      position `i` and keeps the rest in order. */
  lemma {:induction false} RemoveFirstAt(s: seq<Item>, i: nat)
    requires i < |s|
    requires forall j :: 0 <= j < i ==> s[j] != s[i]
    ensures RemoveFirst(s, s[i]) == s[..i] + s[i + 1..]
  {
    if i > 0 {
      assert s[1..][i - 1] == s[i];
      RemoveFirstAt(s[1..], i - 1);
      assert s[1..][..i - 1] == s[1..i];
      assert s[1..][i..] == s[i + 1..];
      assert [s[0]] + s[1..i] == s[..i];
    }
  }

  /** Taking one item out keeps every per-item property of the others and
      keeps ids unique. */
  lemma RemoveAtKeeps(s: seq<Item>, i: nat, bound: int)
    requires i < |s|
    ensures IdsBelow(s, bound) ==> IdsBelow(s[..i] + s[i + 1..], bound)
    ensures TitlesPresent(s) ==> TitlesPresent(s[..i] + s[i + 1..])
    ensures AllConsistent(s) ==> AllConsistent(s[..i] + s[i + 1..])
    ensures UniqueIds(s) ==> UniqueIds(s[..i] + s[i + 1..])
  {
    var r := s[..i] + s[i + 1..];
    assert forall k :: 0 <= k < |r| ==> r[k] == s[if k < i then k else k + 1];
  }

  // ---------------------------------------------------------------------
  // Loading and saving
  // ---------------------------------------------------------------------

  /** `save()`: the file is overwritten with the whole current list. */
  function Save(m: Manager): (r: Manager)
    ensures Persisted(r)
    ensures r.todos == m.todos && r.nextId == m.nextId
  {
    m.(disk := Saved(m.todos))
  }

  /** `load()`: the list is replaced by what the file holds, in the file's
      order; the counter is advanced past every loaded id and never goes
      down. When loading raises, the list and the file are left as they
      were, but the counter keeps the updates the records read before the
      failing one made to it. */
  function Load(m: Manager): (r: Reloaded)
    ensures r.failure.None? <==> LoadTodos(m.disk, m.nextId).Ok?
    ensures r.failure.None? ==> r.manager.todos == LoadTodos(m.disk, m.nextId).value.items
    ensures r.failure.Some? ==> r.failure.value == LoadTodos(m.disk, m.nextId).error
    ensures r.failure.Some? ==> r.manager == m.(nextId := r.failure.value.nextId)
    ensures r.manager.disk == m.disk && r.manager.nextId >= m.nextId
    ensures r.failure.None? && m.nextId >= 1 ==> Valid(r.manager)
    ensures Valid(m) ==> Valid(r.manager)
  {
    match LoadTodos(m.disk, m.nextId)
    case Err(e) => Reloaded(m.(nextId := e.nextId), Some(e))
    case Ok(b) => Reloaded(m.(todos := b.items, nextId := b.nextId), None)
  }

  /** `TodoManager(storage)`: an empty manager over `disk` that loads at
      once, starting from the process-wide counter value `counter` (1 in a
      fresh process). A missing file gives an empty list; when loading
      raises, no manager is built. */
  function Open(disk: Disk, counter: int): (r: Result<Manager, StorageError>)
    ensures disk.Missing? ==> r == Ok(Manager([], counter, Missing))
    ensures disk.Corrupt? ==> r.Err?
    ensures r.Ok? <==> LoadTodos(disk, counter).Ok?
    ensures r.Ok? ==> r.value.todos == LoadTodos(disk, counter).value.items
    ensures r.Ok? ==> r.value.disk == disk && r.value.nextId >= counter
    ensures r.Ok? && counter >= 1 ==> Valid(r.value)
    ensures r.Err? ==> r.error == LoadTodos(disk, counter).error
  {
    var l := Load(Manager([], counter, disk));
    match l.failure
    case Some(e) => Err(e)
    case None => Ok(l.manager)
  }

  /** Reloading a manager whose file holds its list gives the same list
      back: what is saved is exactly what is loaded. */
  lemma ReloadAfterSave(m: Manager)
    requires Persisted(m) && TitlesPresent(m.todos)
    ensures Load(m).failure.None? && Load(m).manager.todos == m.todos
  {
    SaveLoadRoundTrip(m.todos, m.nextId);
  }

  // ---------------------------------------------------------------------
  // Queries
  // ---------------------------------------------------------------------

  /** `get_todos(completed)`: with no filter a copy of the whole list;
      otherwise all the items with that status, in list order. */
  function GetTodos(m: Manager, filter: Option<bool>): (r: seq<Item>)
    ensures filter.None? ==> r == m.todos
    ensures filter.Some? ==> forall k :: 0 <= k < |r| ==> r[k].completed == filter.value
    ensures filter.Some? ==> |r| == Count(m.todos, filter.value) && Subsequence(r, m.todos)
  {
    match filter
    case None => m.todos
    case Some(b) => Matching(m.todos, b)
  }

  /** `get_todo_by_id(id)`: the first item with that id, or `None` when no
      item has it. */
  function GetTodoById(m: Manager, id: int): (r: Option<Item>)
    ensures r.None? <==> forall k :: 0 <= k < |m.todos| ==> m.todos[k].id != id
    ensures r.Some? ==> r.value.id == id
    ensures r.Some? ==> exists k :: 0 <= k < |m.todos| && m.todos[k] == r.value
                                    && forall j :: 0 <= j < k ==> m.todos[j].id != id
  {
    match FindIndex(m.todos, id)
    case None => None
    case Some(i) => Some(m.todos[i])
  }

  // ---------------------------------------------------------------------
  // Mutations
  // ---------------------------------------------------------------------

  /** `add_todo(title, description)`: a new pending item created at `now`
      takes the counter's value as id and goes at the end of the list, which
      is then saved. A blank title raises and leaves the manager as it was
      (no new manager is produced). */
  function AddTodo(m: Manager, title: string, description: string, now: Timestamp): (r: Result<Added, ItemError>)
    ensures r.Err? <==> IsBlank(title)
    ensures r.Err? ==> r.error == EmptyTitle
    ensures r.Ok? ==> r.value.manager.todos == m.todos + [r.value.item]
    ensures r.Ok? ==> Persisted(r.value.manager) && r.value.manager.nextId == m.nextId + 1
    ensures r.Ok? ==> r.value.item.id == m.nextId && !r.value.item.completed
    ensures r.Ok? ==> r.value.item.createdAt == now && r.value.item.completedAt.None?
    ensures r.Ok? ==> r.value.item.title == title && r.value.item.description == description
    ensures r.Ok? && Valid(m) ==> Valid(r.value.manager)
    ensures r.Ok? && Valid(m) ==> forall k :: 0 <= k < |m.todos| ==> m.todos[k].id < r.value.item.id
    ensures r.Ok? && Valid(m) && UniqueIds(m.todos) ==> UniqueIds(r.value.manager.todos)
    ensures r.Ok? && AllConsistent(m.todos) ==> AllConsistent(r.value.manager.todos)
  {
    match NewItem(title, description, now, m.nextId)
    case Err(e) => Err(e)
    case Ok(c) =>
      Ok(Added(Save(m.(todos := m.todos + [c.item], nextId := c.nextId)), c.item))
  }

  /** `complete_todo(id)`: succeeds exactly when the first item with that id
      exists and is pending; then that item alone is completed at `now` and
      the list is saved. Otherwise nothing changes and nothing is saved. */
  function CompleteTodo(m: Manager, id: int, now: Timestamp): (r: Outcome)
    ensures r.success <==> GetTodoById(m, id).Some? && !GetTodoById(m, id).value.completed
    ensures r.success ==> var i := FindIndex(m.todos, id).value;
      r.manager.todos == m.todos[i := Complete(m.todos[i], now)]
    ensures r.success ==> Persisted(r.manager) && r.manager.nextId == m.nextId
    ensures !r.success ==> r.manager == m
    ensures Valid(m) ==> Valid(r.manager)
    ensures UniqueIds(m.todos) ==> UniqueIds(r.manager.todos)
    ensures AllConsistent(m.todos) ==> AllConsistent(r.manager.todos)
  {
    match FindIndex(m.todos, id)
    case None => Outcome(m, false)
    case Some(i) =>
      if !m.todos[i].completed then
        Outcome(Save(m.(todos := m.todos[i := Complete(m.todos[i], now)])), true)
      else
        Outcome(m, false)
  }

  /** `uncomplete_todo(id)`: succeeds exactly when the first item with that
      id exists and is completed; then that item alone becomes pending and
      the list is saved. Otherwise nothing changes and nothing is saved. */
  function UncompleteTodo(m: Manager, id: int): (r: Outcome)
    ensures r.success <==> GetTodoById(m, id).Some? && GetTodoById(m, id).value.completed
    ensures r.success ==> var i := FindIndex(m.todos, id).value;
      r.manager.todos == m.todos[i := Uncomplete(m.todos[i])]
    ensures r.success ==> Persisted(r.manager) && r.manager.nextId == m.nextId
    ensures !r.success ==> r.manager == m
    ensures Valid(m) ==> Valid(r.manager)
    ensures UniqueIds(m.todos) ==> UniqueIds(r.manager.todos)
    ensures AllConsistent(m.todos) ==> AllConsistent(r.manager.todos)
  {
    match FindIndex(m.todos, id)
    case None => Outcome(m, false)
    case Some(i) =>
      if m.todos[i].completed then
        Outcome(Save(m.(todos := m.todos[i := Uncomplete(m.todos[i])])), true)
      else
        Outcome(m, false)
  }

  /** `delete_todo(id)`: succeeds exactly when some item has that id; then
      `list.remove` takes out the first item with it, the others keep their
      order, and the list is saved. Otherwise nothing changes. */
  function DeleteTodo(m: Manager, id: int): (r: Outcome)
    ensures r.success <==> GetTodoById(m, id).Some?
    ensures r.success ==> var i := FindIndex(m.todos, id).value;
      r.manager.todos == m.todos[..i] + m.todos[i + 1..]
    ensures r.success ==> Persisted(r.manager) && r.manager.nextId == m.nextId
    ensures !r.success ==> r.manager == m
    ensures Valid(m) ==> Valid(r.manager)
    ensures UniqueIds(m.todos) ==> UniqueIds(r.manager.todos)
    ensures AllConsistent(m.todos) ==> AllConsistent(r.manager.todos)
  {
    match FindIndex(m.todos, id)
    case None => Outcome(m, false)
    case Some(i) =>
      RemoveFirstAt(m.todos, i);
      RemoveAtKeeps(m.todos, i, m.nextId);
      Outcome(Save(m.(todos := RemoveFirst(m.todos, m.todos[i]))), true)
  }

  /** `clear_completed()`: removes every completed item, keeps the pending
      ones in their order, and returns how many were removed; it saves only
      when that number is positive, and otherwise changes nothing. */
  function ClearCompleted(m: Manager): (r: Cleared)
    ensures r.count == Count(m.todos, true)
    ensures r.manager.todos == Matching(m.todos, false)
    ensures |r.manager.todos| + r.count == |m.todos|
    ensures r.count > 0 ==> Persisted(r.manager) && r.manager.nextId == m.nextId
    ensures r.count == 0 ==> r.manager == m
    ensures Valid(m) ==> Valid(r.manager)
    ensures UniqueIds(m.todos) ==> UniqueIds(r.manager.todos)
    ensures AllConsistent(m.todos) ==> AllConsistent(r.manager.todos)
  {
    var done := Matching(m.todos, true);
    var pending := Matching(m.todos, false);
    CountSplit(m.todos);
    MatchingMembers(m.todos, false);
    MatchingUnique(m.todos, false);
    if |done| > 0 then
      Cleared(Save(m.(todos := pending)), |done|)
    else
      MatchingAll(m.todos, false);
      Cleared(m.(todos := pending), 0)
  }

  // ---------------------------------------------------------------------
  // Properties across operations
  // ---------------------------------------------------------------------

  /** Changing completion status leaves every id where it was, so the same
      position is found for any id. */
  lemma FindIndexSameIds(s: seq<Item>, t: seq<Item>, id: int)
    requires |s| == |t| && forall k :: 0 <= k < |s| ==> s[k].id == t[k].id
    ensures FindIndex(s, id) == FindIndex(t, id)
  {
  }

  /** Completing the same todo twice: the first call succeeds and stamps it,
      the second reports false and changes nothing, so the first completion
      time is kept. */
  lemma CompleteTwice(m: Manager, id: int, t1: Timestamp, t2: Timestamp)
    requires CompleteTodo(m, id, t1).success
    ensures GetTodoById(CompleteTodo(m, id, t1).manager, id).Some?
    ensures GetTodoById(CompleteTodo(m, id, t1).manager, id).value.completedAt == Some(t1)
    ensures CompleteTodo(CompleteTodo(m, id, t1).manager, id, t2)
            == Outcome(CompleteTodo(m, id, t1).manager, false)
  {
    var m1 := CompleteTodo(m, id, t1).manager;
    FindIndexSameIds(m.todos, m1.todos, id);
  }

  /** Completing a pending todo and then uncompleting it gives back the list
      it started from, when that todo was consistent. */
  lemma CompleteThenUncomplete(m: Manager, id: int, now: Timestamp)
    requires AllConsistent(m.todos) && CompleteTodo(m, id, now).success
    ensures UncompleteTodo(CompleteTodo(m, id, now).manager, id).success
    ensures UncompleteTodo(CompleteTodo(m, id, now).manager, id).manager.todos == m.todos
  {
    var m1 := CompleteTodo(m, id, now).manager;
    var i := FindIndex(m.todos, id).value;
    var x := m.todos[i];
    assert m1.todos == m.todos[i := Complete(x, now)];
    FindIndexSameIds(m.todos, m1.todos, id);
    assert Consistent(x) && !x.completed;
    UncompleteUndoesComplete(x, now);
  }

  /** After a successful delete from a list with unique ids, looking the id
      up finds nothing. */
  lemma DeleteThenLookup(m: Manager, id: int)
    requires UniqueIds(m.todos) && DeleteTodo(m, id).success
    ensures GetTodoById(DeleteTodo(m, id).manager, id).None?
  {
    var i := FindIndex(m.todos, id).value;
    var r := DeleteTodo(m, id).manager.todos;
    forall k | 0 <= k < |r| ensures r[k].id != id {
      if k < i {
        assert r[k] == m.todos[k];
      } else {
        assert r[k] == m.todos[k + 1];
      }
    }
  }

  /** The item `add_todo` returns is what looking up its id finds
      afterwards: no earlier item can carry the fresh id. */
  lemma AddThenLookup(m: Manager, title: string, description: string, now: Timestamp)
    requires Valid(m) && !IsBlank(title)
    ensures AddTodo(m, title, description, now).Ok?
    ensures var a := AddTodo(m, title, description, now).value;
      GetTodoById(a.manager, a.item.id) == Some(a.item)
  {
    var a := AddTodo(m, title, description, now).value;
    var s := a.manager.todos;
    assert s[|m.todos|] == a.item;
  }
}

=== FILE: todo_storage.dfy ===
/** `TodoStorage` of src/todo_cli/models.py as the encoding and decoding of
    the sequence of items: the whole collection becomes a sequence of
    records on save and is rebuilt from one on load, in the same order.
    What the file holds is a value of `Disk`; opening, writing and JSON text
    are not modelled. */
module TodoStorage {
  import opened Wrappers
  import opened TodoItem

  /** The storage file as `load_todos` finds it: absent, present but not a
      JSON document, or a JSON array of todo records. */
  datatype Disk = Missing | Corrupt | Stored(records: seq<Record>)

  /** Why loading failed: the file is not JSON, or the record at `index`
      could not be turned into an item. */
  datatype Cause = NotJson | BadRecord(index: nat, error: ItemError)

  /** The `RuntimeError` that `load_todos` wraps every failure in, with the
      value the id counter was left holding: the records decoded before the
      failure keep the counter updates they made. */
  datatype StorageError = StorageError(cause: Cause, nextId: int)

  /** The loaded items and the id counter after loading them. */
  datatype Batch = Batch(items: seq<Item>, nextId: int)

  /** Every item's id lies below `bound`. */
  predicate IdsBelow(items: seq<Item>, bound: int) {
    forall k :: 0 <= k < |items| ==> items[k].id < bound
  }

  /** Every item has a non-blank title. */
  predicate TitlesPresent(items: seq<Item>) {
    forall k :: 0 <= k < |items| ==> !IsBlank(items[k].title)
  }

  /** The records `save_todos` writes: `to_dict` of each item, in order. */
  function SaveTodos(items: seq<Item>): (r: seq<Record>)
    ensures |r| == |items|
    ensures forall k :: 0 <= k < |r| ==> r[k] == ToDict(items[k])
  {
    seq(|items|, k requires 0 <= k < |items| => ToDict(items[k]))
  }

  /** The list comprehension of `load_todos` from position `i` on: each
      record goes through `from_dict` in turn, threading the id counter, and
      the first record that fails stops the load with that record's index,
      the error `from_dict` raised on it and the counter as that record left
      it. On success there is one item per record, and the counter has not
      gone down and exceeds every loaded id; on failure it has not gone down
      either, and it exceeds the id of every record read before the failing
      one. */
  function DecodeFrom(records: seq<Record>, i: nat, counter: int): (r: Result<Batch, StorageError>)
    requires i <= |records|
    decreases |records| - i
    ensures r.Ok? ==> |r.value.items| == |records| - i
    ensures r.Ok? ==> r.value.nextId >= counter && IdsBelow(r.value.items, r.value.nextId)
    ensures r.Err? ==> r.error.cause.BadRecord? && r.error.nextId >= counter
    ensures r.Err? ==> i <= r.error.cause.index < |records| && !Decodable(records[r.error.cause.index])
    ensures r.Err? ==> forall k :: i <= k < r.error.cause.index ==> records[k].id.Some? && records[k].id.value < r.error.nextId
    ensures r.Err? ==> exists c: int :: c >= counter && FromDict(records[r.error.cause.index], c) == Err(Rejected(r.error.cause.error, r.error.nextId))
  {
    if i == |records| then Ok(Batch([], counter))
    else
      match FromDict(records[i], counter)
      case Err(e) => Err(StorageError(BadRecord(i, e.error), e.nextId))
      case Ok(c) =>
        match DecodeFrom(records, i + 1, c.nextId)
        case Err(e) => Err(e)
        case Ok(rest) => Ok(Batch([c.item] + rest.items, rest.nextId))
  }

  /** Decoding succeeds exactly when every remaining record is decodable; the
      items are then the records' items in the records' order, and a failure
      names the first record that cannot be decoded. */
  lemma {:induction false} DecodeFromMeaning(records: seq<Record>, i: nat, counter: int)
    requires i <= |records|
    decreases |records| - i
    ensures DecodeFrom(records, i, counter).Ok? <==> forall k :: i <= k < |records| ==> Decodable(records[k])
    ensures DecodeFrom(records, i, counter).Ok? ==>
      forall k :: 0 <= k < |records| - i ==> DecodeFrom(records, i, counter).value.items[k] == Denoted(records[i + k])
    ensures DecodeFrom(records, i, counter).Err? ==>
      forall k :: i <= k < DecodeFrom(records, i, counter).error.cause.index ==> Decodable(records[k])
  {
    if i < |records| {
      var c := FromDict(records[i], counter);
      if c.Ok? {
        DecodeFromMeaning(records, i + 1, c.value.nextId);
        var rest := DecodeFrom(records, i + 1, c.value.nextId);
        if rest.Ok? {
          var items := [c.value.item] + rest.value.items;
          assert forall k :: 1 <= k < |items| ==> items[k] == rest.value.items[k - 1];
        }
      }
    }
  }

  /** `load_todos()`: a missing file is an empty collection with the counter
      untouched; a file that is not JSON is an error; otherwise every record
      is decoded in order. */
  function LoadTodos(disk: Disk, counter: int): (r: Result<Batch, StorageError>)
    ensures disk.Missing? ==> r == Ok(Batch([], counter))
    ensures disk.Corrupt? ==> r == Err(StorageError(NotJson, counter))
    ensures disk.Stored? ==> (r.Ok? <==> forall k :: 0 <= k < |disk.records| ==> Decodable(disk.records[k]))
    ensures disk.Stored? && r.Ok? ==> |r.value.items| == |disk.records|
    ensures disk.Stored? && r.Ok? ==>
      forall k :: 0 <= k < |r.value.items| ==> r.value.items[k] == Denoted(disk.records[k])
    ensures r.Ok? ==> r.value.nextId >= counter && IdsBelow(r.value.items, r.value.nextId)
    ensures r.Err? ==> r.error.nextId >= counter
    ensures disk.Stored? && r.Err? ==> r.error.cause.BadRecord? && r.error.cause.index < |disk.records| && forall k :: 0 <= k < r.error.cause.index ==> disk.records[k].id.Some? && disk.records[k].id.value < r.error.nextId
    ensures r.Ok? ==> TitlesPresent(r.value.items)
  {
    match disk
    case Missing => Ok(Batch([], counter))
    case Corrupt => Err(StorageError(NotJson, counter))
    case Stored(records) =>
      DecodeFromMeaning(records, 0, counter);
      DecodeFrom(records, 0, counter)
  }

  /** What `save_todos` leaves in the file. */
  function Saved(items: seq<Item>): (d: Disk)
    ensures d.Stored? && |d.records| == |items|
  {
    Stored(SaveTodos(items))
  }

  /** Saving and then loading gives back the very same items in the same
      order, provided every title is non-blank (as it is for every item the
      constructor or a load produced), and the counter ends above every id. */
  lemma SaveLoadRoundTrip(items: seq<Item>, counter: int)
    requires TitlesPresent(items)
    ensures LoadTodos(Saved(items), counter).Ok?
    ensures LoadTodos(Saved(items), counter).value.items == items
    ensures LoadTodos(Saved(items), counter).value.nextId >= counter
    ensures IdsBelow(items, LoadTodos(Saved(items), counter).value.nextId)
  {
    var records := SaveTodos(items);
    forall k | 0 <= k < |records| ensures Decodable(records[k]) && Denoted(records[k]) == items[k] {
      DenotedToDict(items[k]);
    }
    var r := LoadTodos(Saved(items), counter);
    assert r.value.items == items;
  }
}

=== FILE: wrappers.dfy ===
/** Optional values and success/failure results, the shapes the todo model
    uses for Python's `None` and for raised exceptions. */
module Wrappers {

  /** `None` stands for Python's `None` (or a missing dictionary key). */
  datatype Option<+T> = None | Some(value: T) {

    /** The wrapped value, or `default` when there is none (`dict.get(k, default)`). */
    function GetOr(default: T): T {
      match this
      case Some(v) => v
      case None => default
    }
  }

  /** `Err` stands for an exception raised by the modelled code. */
  datatype Result<+T, +E> = Ok(value: T) | Err(error: E)
}
